=== FILE: README.md ===
# Scholarship matcher — a Dafny model

This project models the matching core of a small scholarship search
application: a fixed catalog of ten scholarship records, a scoring rule that
awards points for how well an applicant profile fits one scholarship's
eligibility criteria, and the search pipeline that scores the whole catalog,
keeps the live entries that reach a minimum score and ranks them. It also
models the two views a user can apply to a result (keep only urgent
deadlines; re-sort by deadline or by award amount) and the export table with
ranks 1..n.

Layout (one module per file):

- `wrappers.dfy` — `Wrappers.Option` for optional criteria.
- `text.dfy` — `Text`: lower-casing and Python's substring test (`a in b` on strings).
- `records.dfy` — `Records`: `Eligibility`, `Scholarship`, `Profile`, the `Reason` codes, `Match`.
- `catalog.dfy` — `ScholarshipDatabase`: the ten catalog records.
- `scoring.dfy` — `Scoring`: the rules, declaratively and as the accumulator applies them; `MatchScore`.
- `scoring_properties.dfy` — `ScoringProperties`: what the scoring rule promises.
- `ordering.dfy` — `Ordering`: tuple-like sort keys and a stable sort.
- `pipeline.dfy` — `Pipeline`: `Evaluate`, `Search`, the urgent filter and the views.
- `session_view.dfy` — `SessionView`: the in-place re-sort of the stored result (see Findings).
- `export.dfy` — `Export`: export rows.
- `examples.dfy` — `ScoringExamples`: worked examples and the two meanings of `"any"`.

Scoring, in the source's order: gender +30 (the literal `"any"` in the
gender list is a wildcard); major +40 for the first keyword that is a
substring of the lower-cased profile major or has it as a substring (only
the profile side is lower-cased, and `"any"` is an ordinary keyword here);
GPA +15 when at or above the minimum, with a reason on both branches;
location +10 when an allowed location is a case-sensitive substring of the
profile location, or a flat +5 when the scholarship has no location list;
below the minimum age the running score drops by 20, floored at 0; an
expired deadline forces the score to 0. The days left until the deadline
are a parameter (`daysLeft`, or a `Clock` from deadline text to days in the
pipeline). Reasons are structured codes (`Records.Reason`), not display strings.

A few facts about the code that a reader of its interface might not expect.
The page shows scores out of 100, but the best score the code can give is
95. Only the profile side of the major test is lower-cased. The code never
validates the profile; the input form bounds GPA and age (dc57db14.py:22-31).
The catalog is compiled in, so there are no catalog-load errors. The urgent
view keeps `days <= 14` although its label says "< 14 days". The first page
load runs a search without the button being pressed (dc57db14.py:257), so
the core has no separate "not yet searched" state.

## Model

| member | source | states |
|---|---|---|
| `Scoring.MatchScore` | dc57db14.py:198-254 | The score always lies in [0, 95] and is at most 90 without a location list; an expired deadline gives score 0 with "deadline passed" as the last reason; reasons come out in rule order, at most one per rule; the days left are returned unchanged |
| `Scoring.FirstMajorMatch` | dc57db14.py:209-215 | The scan over major keywords stops at the first keyword that matches: none is found exactly when no keyword matches, otherwise the index found matches and every earlier keyword does not |
| `Scoring.AnyLocationHit` | dc57db14.py:227-228 | The short-circuit scan over allowed locations is true exactly when some allowed location occurs in the profile location |
| `Text.IsSubstring` | dc57db14.py:212 | Python's `a in b` on strings holds exactly when `a` occurs in `b` at some position (the empty string occurs everywhere) |
| `Text.SubstringBasics` | dc57db14.py:212 | The empty string is a substring of everything, every string of itself, and a substring is never longer than the string it occurs in |
| `Text.Lower` | dc57db14.py:210 | `str.lower()` on the profile major: same length, no upper-case letter left, each upper-case letter replaced by its lower-case letter and every other character kept in place |
| `ScoringProperties.MatchScoreFollowsRules` | dc57db14.py:198-252 | The accumulator equals the rules read independently: 0 when expired, otherwise gender 30 + major 40 + GPA 15 + location (10, 0, or flat 5), less 20 floored at 0 when under the minimum age |
| `ScoringProperties.DeadlineReasonsKeepScore` | dc57db14.py:246-252 | While the deadline has not passed, how near it is never changes the score: any two non-negative day counts give the same score |
| `ScoringProperties.DeadlineReason` | dc57db14.py:246-252 | The last reason is "deadline passed" when expired, "urgent" for 0..14 days, "soon" for 15..30 days, and there is no deadline reason beyond 30 days |
| `ScoringProperties.MajorReasonIsFirstMatch` | dc57db14.py:209-215 | A major reason is present exactly when some keyword matches the lower-cased major, it names the first matching keyword in list order, and there is never more than one |
| `ScoringProperties.MajorPointsAllOrNothing` | dc57db14.py:209-215 | For a scholarship that has not expired and sets no minimum age, the major rule adds exactly 40 points when some keyword matches and nothing otherwise, compared with the same scholarship without a major list |
| `ScoringProperties.GenderReason` | dc57db14.py:203-206 | A gender reason is present exactly when the applicant's gender or "any" is in the scholarship's gender list |
| `ScoringProperties.GpaReasonEitherWay` | dc57db14.py:218-224 | When a minimum GPA is set, a "qualifies" reason appears exactly when the GPA reaches it and a "below minimum" reason exactly when it does not; without a minimum there is no GPA reason |
| `ScoringProperties.LocationReason` | dc57db14.py:227-230 | A location reason is present exactly when an allowed location is a case-sensitive substring of the profile location |
| `ScoringProperties.LocationBranches` | dc57db14.py:227-232 | For a scholarship that has not expired and sets no minimum age, exactly one location branch applies: a flat 5 without a location list, 10 on a hit and 0 on a miss with one, compared with the same scholarship with an empty location list |
| `ScoringProperties.AgePenaltyFloorsAtZero` | dc57db14.py:235-239 | For every day count: under the minimum age the score is max(0, score without the age criterion − 20); at or above it the score equals the score without the age criterion |
| `ScoringProperties.AgeReason` | dc57db14.py:235-240 | With a minimum age, a "met" reason appears exactly when the age reaches it and a "not met" reason (with both ages) exactly when it does not; without one there is no age reason |
| `ScoringProperties.ReasonsByRule` | dc57db14.py:198-254 | The reason list is what the six rules emit one after another, each independently of the points gathered before it |
| `ScoringProperties.ReasonComesFromItsRule` | dc57db14.py:198-254 | A reason is in the result exactly when the rule it belongs to emits it, whatever the running score |
| `ScoringExamples.FullMatchScoresNinety` | dc57db14.py:198-254 | A female "English Literature" applicant with GPA 3.5 scores 30+40+15+5 = 90 on an English scholarship for women with minimum GPA 3.0 and no location list, with an urgent note 10 days out |
| `ScoringExamples.LowGpaScoresSeventyFive` | dc57db14.py:218-224 | The same applicant with GPA 2.0 scores 75 and gets a below-minimum reason |
| `ScoringExamples.UnderAgeScoresSeventy` | dc57db14.py:235-240 | A minimum age of 35 costs a 20-year-old 20 points (90 to 70) and adds a "not met" reason |
| `ScoringExamples.ExpiredScoresZero` | dc57db14.py:246-248 | One day past the deadline even a 90-point fit scores 0, with a "deadline passed" reason |
| `ScoringExamples.AnyIsAGenderWildcard` | dc57db14.py:203-206 | "any" in the gender list gives every applicant the gender reason |
| `ScoringExamples.AnyIsNotAMajorWildcard` | dc57db14.py:209-215 | A scholarship whose only major keyword is "any" gives none of the majors the form offers a major match |
| `ScoringExamples.OfferedMajorsAvoidAny` | dc57db14.py:24-28 | No major the form offers, lower-cased, contains a "y" or is as short as "any" |
| `Ordering.SortBy` | dc57db14.py:282 | Python's stable `list.sort` by a tuple key: the result is sorted by the key, is a permutation of the input, and for every key value keeps the elements with that key in input order |
| `Ordering.InsertSorted` | dc57db14.py:282 | Inserting into a sorted list keeps it sorted |
| `Ordering.InsertElements` | dc57db14.py:282 | Inserting adds exactly the one element to the multiset of elements |
| `Ordering.InsertKeepsTies` | dc57db14.py:282 | The inserted element precedes every element with an equal key, and the order among the others is kept |
| `Pipeline.Evaluate` | dc57db14.py:272 | A scored entry carries its scholarship, the clock's days left for its deadline and a score in [0, 95], which is 0 when the deadline has passed |
| `Pipeline.Keep` | dc57db14.py:271-280 | Each entry occurs in the kept list as often as in the input when it reaches the minimum score and is not expired, and not at all otherwise, and the kept list is a subsequence of the input, so it keeps input order as the append loop does |
| `Pipeline.Search` | dc57db14.py:268-282 | A catalog entry is in the result exactly when its score reaches the minimum and its deadline has not passed; the result is a permutation of those entries, ordered by score descending and days left ascending, with full ties in the order of the kept list, which is catalog order |
| `Pipeline.ScoreOrderMeaning` | dc57db14.py:282 | Sorted by the key (−score, days left) means higher score first, nearer deadline first among equal scores |
| `Pipeline.UrgentOnly` | dc57db14.py:315-316 | The urgent filter keeps every copy of each entry at most 14 days from its deadline and nothing else, as an order-preserving subsequence, without re-scoring |
| `Pipeline.View` | dc57db14.py:314-321 | The displayed list is a permutation of the (optionally urgent-filtered) list; "Deadline" sorts by days left ascending and "Amount" by amount descending, both stably; "Match Score" keeps the list's order |
| `Pipeline.DeadlineOrderMeaning` | dc57db14.py:319 | Sorted by the deadline key means days left never decrease along the list |
| `Pipeline.AmountOrderMeaning` | dc57db14.py:321 | Sorted by the amount key means amounts never increase along the list |
| `SessionView.ViewInPlace` | dc57db14.py:314-321 | As written: the stored result keeps the same entries; with the urgent filter or the "Match Score" choice it is unchanged, but without the filter a "Deadline" view leaves it sorted by days left ascending and an "Amount" view leaves it sorted by amount descending |
| `SessionView.InPlaceResortLosesScoreOrder` | dc57db14.py:314-321 | As written: for any two scholarships, a stored result in score order (score 80 due in 50 days, score 45 due in 5 days), viewed by "Deadline" and then by "Match Score", is shown out of score order |
| `SessionView.UrgentOnlyKeepsOrder` | dc57db14.py:316 | The urgent filter keeps whatever order the list had |
| `SessionView.ScoreViewOfSearchIsSorted` | dc57db14.py:282-321 | Corrected: with a view that leaves the stored result alone, the "Match Score" view of a search result is always in score order, with or without the urgent filter |
| `Export.ExportRows` | dc57db14.py:375-387 | One row per displayed match, in display order; row i has rank i (1-based) and carries that match's name, amount, deadline, days left, score, URL and description |

## Left out

- Streamlit widgets, page layout, expanders, progress bars, tag and flag display, session caching: presentation, not matching logic.
- Date parsing and the clock: the days left until a deadline is a parameter (`daysLeft`, or a `Clock` from deadline text to whole days), so neither `strptime` failures on a malformed date nor the whole-day floor of the time difference are modelled; the source reads the current time again for every scholarship, while the model reads one clock for the whole search, so a search that crosses midnight is not modelled.
- Text.Lower: lower-cases ASCII letters only; Python's `str.lower` also maps non-ASCII letters, which the catalog and the form never contain.
- GPA is a `real`; floating-point rounding of the form's GPA input is not modelled, as the value is only compared.
- Reason texts, emoji, the "$1,234" amount and "85/100" score formatting in rows, and the CSV/DataFrame serialisation and download button: presentation and a foreign library; reasons are structured codes and rows keep numbers.
- The summary metrics (count, total value, urgent count, average score): display-only reductions over the result.
- Eligibility fields that scoring never reads (essay, portfolio and membership flags, diversity, level) and the profile's name and interests: the three flags are only displayed and the rest are never read, so none of them is part of the records.
- ScholarshipDatabase.GetScholarships: the ten records are transcribed as data with no contract; facts about the whole literal list (ten records, non-empty gender and major lists, distinct names) are too costly to verify, because every proof about the list unfolds every character of every record; no property of the model depends on them, because the search takes the catalog as a parameter.
- Export.ExportRows: the source builds no rows for an empty list (it shows a warning instead); the model returns the empty row list.

## Findings

| source | as written | input that shows it | evidently intended | confidence | as-written member | corrected member |
|---|---|---|---|---|---|---|
| dc57db14.py:314-321 | `filtered_matches.sort(...)` sorts in place; without the urgent filter `filtered_matches` is the stored `st.session_state.matches` list, so a "Deadline" or "Amount" view permanently reorders the stored result, and the "Match Score" choice (which does not sort) then shows that order | stored result [score 80 due in 50 days, score 45 due in 5 days]; view "Deadline", then "Match Score": shown as [45, 80] | the "Match Score" view shows the search result in score order; a view does not change the stored result | medium (not executed; relies on the stored list object surviving reruns) | `SessionView.InPlaceResortLosesScoreOrder` | `SessionView.ScoreViewOfSearchIsSorted` |

=== FILE: catalog.dfy ===
/** The compiled-in scholarship catalog, in the order it is authored. */
module ScholarshipDatabase {
  import opened Wrappers
  import opened Records

  /** Eligibility with only the four keys most records use. */
  function Criteria(gender: seq<string>, major: seq<string>, gpaMin: real): Eligibility
  {
    Eligibility(Some(gender), Some(major), Some(gpaMin), None, None)
  }

  /** The ten catalog records, in authored order. */
  function GetScholarships(): seq<Scholarship>
  {
    [VoicesOfTomorrow(), LadiesLiteraryClub(), DesMoinesWomensClub(), ValorenaPublishing(), AauwCareerDevelopment(),
     ScholasticArtAndWriting(), SigmaTauDelta(), JeannetteRankin(), PeoScholarAwards(), ArtsAndLetters()]
  }

  function VoicesOfTomorrow(): Scholarship
  {
    Scholarship(
      "Alexandra Rowan Voices of Tomorrow Scholarship", 3000, "2026-04-01",
      Criteria(["female"], ["english", "creative writing", "literature"], 0.0),
      "For women aspiring writers pursuing degrees in English/writing",
      "https://bold.org/scholarships/alexandra-rowan-voices-of-tomorrow/",
      ["women", "writing", "creative"])
  }

  function LadiesLiteraryClub(): Scholarship
  {
    Scholarship(
      "GRCF Ladies Literary Club Scholarship", 5000, "2026-03-01",
      Eligibility(Some(["female"]), Some(["english", "literature", "humanities"]), Some(3.0),
                  Some(["Michigan"]), None),
      "For female literature majors in Michigan",
      "https://bold.org/scholarships/",
      ["women", "literature", "regional"])
  }

  function DesMoinesWomensClub(): Scholarship
  {
    Scholarship(
      "Des Moines Women's Club Literature Scholarship", 2000, "2026-01-27",
      Criteria(["female"], ["literature", "english"], 0.0),
      "Supporting women in literature studies",
      "https://bold.org/scholarships/",
      ["women", "literature"])
  }

  function ValorenaPublishing(): Scholarship
  {
    Scholarship(
      "Valorena Publishing & Cocoa Kids Collection Scholarship", 500, "2026-03-27",
      Criteria(["female"], ["english", "writing", "publishing"], 0.0),
      "For BIPOC/multicultural women in writing and publishing",
      "https://bold.org/scholarships/",
      ["women", "diversity", "publishing"])
  }

  function AauwCareerDevelopment(): Scholarship
  {
    Scholarship(
      "AAUW Career Development Grants", 8000, "2026-02-15",
      Criteria(["female"], ["english", "humanities", "liberal arts"], 3.0),
      "American Association of University Women grants for women",
      "https://www.aauw.org/resources/programs/fellowships-grants/",
      ["women", "prestigious", "national"])
  }

  function ScholasticArtAndWriting(): Scholarship
  {
    Scholarship(
      "Scholastic Art & Writing Awards", 10000, "2026-02-01",
      Criteria(["any"], ["creative writing", "english", "writing"], 0.0),
      "For talented young writers with portfolio submissions",
      "https://www.artandwriting.org/",
      ["writing", "portfolio", "prestigious"])
  }

  function SigmaTauDelta(): Scholarship
  {
    Scholarship(
      "Sigma Tau Delta International English Honor Society Scholarships", 1500, "2026-03-15",
      Criteria(["any"], ["english"], 3.5),
      "For English Honor Society members",
      "https://www.english.org/scholarships/",
      ["english", "academic excellence"])
  }

  function JeannetteRankin(): Scholarship
  {
    Scholarship(
      "Jeannette Rankin Women's Scholarship Fund", 2500, "2026-03-01",
      Eligibility(Some(["female"]), Some(["any"]), Some(2.5), None, Some(35)),
      "For women age 35+ pursuing any degree",
      "https://rankinfoundation.org/",
      ["women", "non-traditional"])
  }

  function PeoScholarAwards(): Scholarship
  {
    Scholarship(
      "P.E.O. Scholar Awards", 20000, "2026-11-30",
      Criteria(["female"], ["any"], 3.5),
      "Prestigious award for women doctoral/graduate students",
      "https://www.peointernational.org/",
      ["women", "graduate", "prestigious"])
  }

  function ArtsAndLetters(): Scholarship
  {
    Scholarship(
      "National Society of Arts and Letters Scholarships", 3500, "2026-02-28",
      Criteria(["any"], ["creative writing", "literature", "english"], 3.0),
      "For students excelling in creative arts and literature",
      "https://www.nsalarts.org/",
      ["creative", "arts", "national"])
  }
}

=== FILE: examples.dfy ===
/** Worked examples of the scoring rule on concrete profiles and catalog records. */
module ScoringExamples {
  import opened Wrappers
  import opened Text
  import opened Records
  import opened Scoring
  import opened ScoringProperties

  /** A scholarship for women in English, minimum GPA 3.0, no location list. */
  function EnglishForWomen(ageMin: Option<int>): Scholarship
  {
    Scholarship("Example Award", 1000, "2026-06-01",
      Eligibility(Some(["female"]), Some(["english"]), Some(3.0), None, ageMin),
      "An example", "https://example.org/", [])
  }

  function Applicant(gpa: real): Profile
  {
    Profile("female", "English Literature", gpa, "US", 20)
  }

  lemma ProfileMajorLowered()
    ensures Lower("English Literature") == "english literature"
  {
    var s := "English Literature";
    var t := "english literature";
    forall i | 0 <= i < |s|
      ensures Lower(s)[i] == t[i]
    {
      assert LowerChar(s[i]) == t[i];
    }
  }

  /** A character of the needle that the haystack lacks rules the substring out. */
  lemma MissingCharacter(needle: string, hay: string, c: char)
    requires c in needle && c !in hay
    ensures !IsSubstring(needle, hay)
  {
  }

  /**
    Gender, major ("english" occurs in "english literature"), GPA and the
    open-location bonus: 30 + 40 + 15 + 5 = 90, with an urgent note 10 days out.
   */
  lemma FullMatchScoresNinety()
    ensures MatchScore(EnglishForWomen(None), Applicant(3.5), 10).score == 90
    ensures UrgentDeadline(10) in MatchScore(EnglishForWomen(None), Applicant(3.5), 10).reasons
    ensures MajorMatch("english") in MatchScore(EnglishForWomen(None), Applicant(3.5), 10).reasons
  {
    ProfileMajorLowered();
    assert OccursAt("english", "english literature", 0);
    assert MajorMatches("english", Lower(Applicant(3.5).major));
    assert MajorAccepted(EnglishForWomen(None).eligibility, Applicant(3.5));
    MatchScoreFollowsRules(EnglishForWomen(None), Applicant(3.5), 10);
    DeadlineReason(EnglishForWomen(None), Applicant(3.5), 10);
  }

  /** The same applicant with GPA 2.0 loses only the GPA points: 75, with a below-minimum reason. */
  lemma LowGpaScoresSeventyFive()
    ensures MatchScore(EnglishForWomen(None), Applicant(2.0), 10).score == 75
    ensures GpaBelowMinimum(2.0, 3.0) in MatchScore(EnglishForWomen(None), Applicant(2.0), 10).reasons
  {
    ProfileMajorLowered();
    assert OccursAt("english", "english literature", 0);
    assert MajorMatches("english", Lower(Applicant(2.0).major));
    MatchScoreFollowsRules(EnglishForWomen(None), Applicant(2.0), 10);
    GpaReasonEitherWay(EnglishForWomen(None), Applicant(2.0), 10);
  }

  /** A minimum age of 35 costs a 20-year-old 20 points: 90 - 20 = 70. */
  lemma UnderAgeScoresSeventy()
    ensures MatchScore(EnglishForWomen(Some(35)), Applicant(3.5), 10).score == 70
    ensures AgeRequirementNotMet(20, 35) in MatchScore(EnglishForWomen(Some(35)), Applicant(3.5), 10).reasons
  {
    ProfileMajorLowered();
    assert OccursAt("english", "english literature", 0);
    assert MajorMatches("english", Lower(Applicant(3.5).major));
    MatchScoreFollowsRules(EnglishForWomen(Some(35)), Applicant(3.5), 10);
    AgeReason(EnglishForWomen(Some(35)), Applicant(3.5), 10);
  }

  /** The majors the profile form offers. */
  const OfferedMajors: seq<string> := ["English Literature", "Creative Writing", "English", "Humanities",
                                       "Comparative Literature", "Journalism", "Publishing"]

  lemma LowerKeepsCharacterOut(m: string, c: char)
    requires c !in m && LowerChar(c) == c
    requires forall d :: d in m ==> LowerChar(d) != c
    ensures c !in Lower(m)
  {
  }

  /** No offered major, lower-cased, contains a "y", and none is as short as "any". */
  lemma OfferedMajorsAvoidAny(m: string)
    requires m in OfferedMajors
    ensures 'y' !in Lower(m) && |Lower(m)| > 3
  {
    assert 'y' !in m && 'Y' !in m;
    LowerKeepsCharacterOut(m, 'y');
  }

  /** For gender, "any" in the accepted list matches every applicant. */
  lemma AnyIsAGenderWildcard(s: Scholarship, p: Profile, daysLeft: int)
    requires s.eligibility.gender.Some? && "any" in s.eligibility.gender.value
    ensures GenderMatch in MatchScore(s, p, daysLeft).reasons
  {
    GenderReason(s, p, daysLeft);
  }

  /**
    For major, "any" is an ordinary keyword compared by substring, so a
    scholarship whose only major is "any" gives none of the offered majors a
    major match.
   */
  lemma AnyIsNotAMajorWildcard(s: Scholarship, p: Profile, daysLeft: int)
    requires s.eligibility.major == Some(["any"]) && p.major in OfferedMajors
    ensures forall r :: r in MatchScore(s, p, daysLeft).reasons ==> !r.MajorMatch?
  {
    OfferedMajorsAvoidAny(p.major);
    assert 'y' in "any";
    MissingCharacter("any", Lower(p.major), 'y');
    SubstringBasics(Lower(p.major), "any");
    assert forall k :: k in ["any"] ==> k == "any";
    MajorReasonIsFirstMatch(s, p, daysLeft);
  }

  /** An expired deadline zeroes even a perfect match. */
  lemma ExpiredScoresZero()
    ensures MatchScore(EnglishForWomen(None), Applicant(3.5), -1).score == 0
    ensures DeadlinePassed in MatchScore(EnglishForWomen(None), Applicant(3.5), -1).reasons
  {
    var r := MatchScore(EnglishForWomen(None), Applicant(3.5), -1);
    assert r.reasons[|r.reasons| - 1] == DeadlinePassed;
  }
}

=== FILE: export.dfy ===
/** The tabular export of the displayed matches, one row per match, ranked from 1. */
module Export {
  import opened Records

  /**
    One export row. Amount and score are kept as numbers; the source formats
    them as "$1,234" and "85/100" text.
   */
  datatype ExportRow = ExportRow(
    rank: int,
    scholarship: string,
    amount: int,
    deadline: string,
    daysLeft: int,
    matchScore: int,
    url: string,
    description: string)

  /** The row carries the match's scholarship fields, days left and score. */
  predicate Describes(row: ExportRow, m: Match)
  {
    && row.scholarship == m.scholarship.name
    && row.amount == m.scholarship.amount
    && row.deadline == m.scholarship.deadline
    && row.daysLeft == m.daysLeft
    && row.matchScore == m.score
    && row.url == m.scholarship.url
    && row.description == m.scholarship.description
  }

  /** Builds the rows in display order, numbering them 1, 2, ..., n. */
  method ExportRows(shown: seq<Match>) returns (rows: seq<ExportRow>)
    ensures |rows| == |shown|
    ensures forall i :: 0 <= i < |rows| ==> rows[i].rank == i + 1 && Describes(rows[i], shown[i])
  {
    rows := [];
    var i := 0;
    while i < |shown|
      invariant 0 <= i <= |shown|
      invariant |rows| == i
      invariant forall j :: 0 <= j < i ==> rows[j].rank == j + 1 && Describes(rows[j], shown[j])
    {
      var s := shown[i].scholarship;
      rows := rows + [ExportRow(i + 1, s.name, s.amount, s.deadline, shown[i].daysLeft,
                                shown[i].score, s.url, s.description)];
      i := i + 1;
    }
  }
}

=== FILE: ordering.dfy ===
/**
  The orders the match list is shown in, and the stable sort that produces
  them. Python's `list.sort(key=...)` is stable and compares tuple keys
  lexicographically; a key here is a pair of integers compared the same way.
 */
module Ordering {
  import opened Records

  /** A sort key: two integers compared lexicographically, like a Python tuple. */
  datatype Key = Key(primary: int, secondary: int)

  predicate KeyLeq(a: Key, b: Key)
  {
    a.primary < b.primary || (a.primary == b.primary && a.secondary <= b.secondary)
  }

  /** The three orders: the search's default, and the two re-sorts a viewer may pick. */
  datatype Order =
    | ScoreThenDeadline   // key (-score, days left): best score first, nearer deadline breaks ties
    | DeadlineFirst       // key days left: nearest deadline first
    | AmountFirst         // key -amount: largest award first

  function KeyOf(o: Order, m: Match): Key
  {
    match o
    case ScoreThenDeadline => Key(-m.score, m.daysLeft)
    case DeadlineFirst => Key(m.daysLeft, 0)
    case AmountFirst => Key(-m.scholarship.amount, 0)
  }

  /** Every element's key is at most every later element's key. */
  predicate Sorted(o: Order, s: seq<Match>)
  {
    forall i, j :: 0 <= i < j < |s| ==> KeyLeq(KeyOf(o, s[i]), KeyOf(o, s[j]))
  }

  /** The elements of `s` whose key is `k`, in their order in `s`. */
  function WithKey(o: Order, s: seq<Match>, k: Key): seq<Match>
  {
    if s == [] then []
    else (if KeyOf(o, s[0]) == k then [s[0]] else []) + WithKey(o, s[1..], k)
  }

  /**
    A stable rearrangement: for every key, the elements carrying that key
    appear in the same relative order before and after.
   */
  ghost predicate KeepsTiesInOrder(o: Order, before: seq<Match>, after: seq<Match>)
  {
    forall k :: WithKey(o, after, k) == WithKey(o, before, k)
  }

  /**
    Places `x` in front of the first element whose key is not smaller than
    its own, so `x` stays ahead of the elements with an equal key.
   */
  function Insert(o: Order, x: Match, s: seq<Match>): seq<Match>
  {
    if s == [] then [x]
    else if KeyLeq(KeyOf(o, x), KeyOf(o, s[0])) then [x] + s
    else [s[0]] + Insert(o, x, s[1..])
  }

  lemma {:induction false} InsertElements(o: Order, x: Match, s: seq<Match>)
    ensures multiset(Insert(o, x, s)) == multiset(s) + multiset{x}
  {
    if s != [] && !KeyLeq(KeyOf(o, x), KeyOf(o, s[0])) {
      InsertElements(o, x, s[1..]);
      assert s == [s[0]] + s[1..];
    }
  }

  /** A sorted sequence stays sorted when an element no larger than all of it is put in front. */
  lemma SortedCons(o: Order, a: Match, s: seq<Match>)
    requires Sorted(o, s)
    requires forall y :: y in s ==> KeyLeq(KeyOf(o, a), KeyOf(o, y))
    ensures Sorted(o, [a] + s)
  {
    var r := [a] + s;
    forall i, j | 0 <= i < j < |r|
      ensures KeyLeq(KeyOf(o, r[i]), KeyOf(o, r[j]))
    {
      assert r[j] == s[j - 1];
      if i > 0 {
        assert r[i] == s[i - 1];
      }
    }
  }

  lemma {:induction false} InsertSorted(o: Order, x: Match, s: seq<Match>)
    requires Sorted(o, s)
    ensures Sorted(o, Insert(o, x, s))
  {
    if s == [] {
    } else if KeyLeq(KeyOf(o, x), KeyOf(o, s[0])) {
      forall y | y in s
        ensures KeyLeq(KeyOf(o, x), KeyOf(o, y))
      {
        var l :| 0 <= l < |s| && s[l] == y;
        assert l == 0 || KeyLeq(KeyOf(o, s[0]), KeyOf(o, s[l]));
      }
      SortedCons(o, x, s);
    } else {
      var rest := Insert(o, x, s[1..]);
      InsertSorted(o, x, s[1..]);
      InsertElements(o, x, s[1..]);
      forall y | y in rest
        ensures KeyLeq(KeyOf(o, s[0]), KeyOf(o, y))
      {
        assert y in multiset(rest);
        if y != x {
          assert y in multiset(s[1..]);
          var l :| 0 <= l < |s[1..]| && s[1..][l] == y;
          assert s[l + 1] == y;
        }
      }
      SortedCons(o, s[0], rest);
    }
  }

  lemma {:induction false} InsertKeepsTies(o: Order, x: Match, s: seq<Match>, k: Key)
    ensures WithKey(o, Insert(o, x, s), k) == (if KeyOf(o, x) == k then [x] else []) + WithKey(o, s, k)
  {
    if s == [] {
      assert WithKey(o, [x], k) == (if KeyOf(o, x) == k then [x] else []) + WithKey(o, [], k);
    } else if KeyLeq(KeyOf(o, x), KeyOf(o, s[0])) {
      assert ([x] + s)[1..] == s;
    } else {
      InsertKeepsTies(o, x, s[1..], k);
      var rest := Insert(o, x, s[1..]);
      var head := if KeyOf(o, s[0]) == k then [s[0]] else [];
      var mine := if KeyOf(o, x) == k then [x] else [];
      assert ([s[0]] + rest)[1..] == rest;
      assert WithKey(o, [s[0]] + rest, k) == head + WithKey(o, rest, k);
      assert WithKey(o, s, k) == head + WithKey(o, s[1..], k);
      // `x` went past `s[0]`, so they cannot both carry the key `k`.
      assert head == [] || mine == [];
    }
  }

  /**
    Stable sort by the order's key: the result is sorted, holds the same
    elements with the same multiplicities, and keeps ties in input order.
   */
  function SortBy(o: Order, s: seq<Match>): (r: seq<Match>)
    ensures Sorted(o, r)
    ensures multiset(r) == multiset(s)
    ensures KeepsTiesInOrder(o, s, r)
  {
    if s == [] then []
    else
      var rest := SortBy(o, s[1..]);
      InsertSorted(o, s[0], rest);
      InsertElements(o, s[0], rest);
      assert s == [s[0]] + s[1..];
      assert KeepsTiesInOrder(o, s, Insert(o, s[0], rest)) by {
        forall k
          ensures WithKey(o, Insert(o, s[0], rest), k) == WithKey(o, s, k)
        {
          InsertKeepsTies(o, s[0], rest, k);
        }
      }
      Insert(o, s[0], rest)
  }
}

=== FILE: pipeline.dfy ===
/**
  The search pipeline and the post-hoc views over its result: score every
  catalog entry, keep the live ones that reach the minimum score, sort them
  best first; then optionally keep only urgent deadlines and re-sort by
  deadline or by amount.
 */
module Pipeline {
  import opened Records
  import opened Scoring
  import opened Ordering

  /**
    Whole days from now until a deadline given as "YYYY-MM-DD" text. The
    source parses the date and subtracts the current time; here that
    reading of the clock is a parameter.
   */
  type Clock = string -> int

  /** One catalog entry scored against the profile at the clock's "now". */
  function Evaluate(s: Scholarship, p: Profile, clock: Clock): (m: Match)
    ensures m.scholarship == s && m.daysLeft == clock(s.deadline)
    ensures 0 <= m.score <= MaxScore
    ensures m.daysLeft < 0 ==> m.score == 0
  {
    var r := MatchScore(s, p, clock(s.deadline));
    Match(s, r.score, r.reasons, r.daysLeft)
  }

  /** Every catalog entry scored, in catalog order. */
  function ScoreAll(catalog: seq<Scholarship>, p: Profile, clock: Clock): seq<Match>
  {
    seq(|catalog|, i requires 0 <= i < |catalog| => Evaluate(catalog[i], p, clock))
  }

  /** A scored entry reaches the minimum score and its deadline has not passed. */
  predicate Qualifies(m: Match, minScore: int)
  {
    m.score >= minScore && m.daysLeft >= 0
  }

  /** `a` can be obtained from `b` by deleting elements. */
  ghost predicate IsSubsequence(a: seq<Match>, b: seq<Match>)
  {
    a == [] || (b != [] && ((a[0] == b[0] && IsSubsequence(a[1..], b[1..])) || IsSubsequence(a, b[1..])))
  }

  /**
    The qualifying entries, every copy of each, in their original order: the
    counts and the subsequence property together determine the result.
   */
  function Keep(ms: seq<Match>, minScore: int): (r: seq<Match>)
    ensures forall m :: multiset(r)[m] == if Qualifies(m, minScore) then multiset(ms)[m] else 0
    ensures IsSubsequence(r, ms)
  {
    if ms == [] then []
    else
      assert ms == [ms[0]] + ms[1..];
      var rest := Keep(ms[1..], minScore);
      if Qualifies(ms[0], minScore) then
        assert ([ms[0]] + rest)[1..] == rest;
        [ms[0]] + rest
      else
        rest
  }

  /** Sorted by the default key means best score first, nearer deadline first among equal scores. */
  lemma ScoreOrderMeaning(r: seq<Match>)
    requires Sorted(ScoreThenDeadline, r)
    ensures forall i, j :: 0 <= i < j < |r| ==>
      r[i].score > r[j].score || (r[i].score == r[j].score && r[i].daysLeft <= r[j].daysLeft)
  {
    forall i, j | 0 <= i < j < |r|
      ensures r[i].score > r[j].score || (r[i].score == r[j].score && r[i].daysLeft <= r[j].daysLeft)
    {
      assert KeyLeq(KeyOf(ScoreThenDeadline, r[i]), KeyOf(ScoreThenDeadline, r[j]));
    }
  }

  /** Scoring the catalog yields each entry's evaluation, at its own position. */
  lemma ScoreAllHoldsEvaluations(catalog: seq<Scholarship>, p: Profile, clock: Clock)
    ensures forall i :: 0 <= i < |catalog| ==> Evaluate(catalog[i], p, clock) in multiset(ScoreAll(catalog, p, clock))
  {
    var scored := ScoreAll(catalog, p, clock);
    forall i | 0 <= i < |catalog|
      ensures Evaluate(catalog[i], p, clock) in multiset(scored)
    {
      assert scored[i] == Evaluate(catalog[i], p, clock);
      assert scored[i] in scored;
    }
  }

  /**
    The search: the qualifying entries sorted by score, best first, with the
    nearer deadline first among equal scores and catalog order among full ties.
   */
  function Search(catalog: seq<Scholarship>, p: Profile, minScore: int, clock: Clock): (r: seq<Match>)
    ensures forall m ::
      multiset(r)[m] == if Qualifies(m, minScore) then multiset(ScoreAll(catalog, p, clock))[m] else 0
    ensures forall i :: 0 <= i < |catalog| ==>
      (Evaluate(catalog[i], p, clock) in r <==> Qualifies(Evaluate(catalog[i], p, clock), minScore))
    ensures forall m :: m in r ==> Qualifies(m, minScore) && m in ScoreAll(catalog, p, clock)
    ensures forall i, j :: 0 <= i < j < |r| ==>
      r[i].score > r[j].score || (r[i].score == r[j].score && r[i].daysLeft <= r[j].daysLeft)
    ensures KeepsTiesInOrder(ScoreThenDeadline, Keep(ScoreAll(catalog, p, clock), minScore), r)
  {
    var scored := ScoreAll(catalog, p, clock);
    var kept := Keep(scored, minScore);
    var r := SortBy(ScoreThenDeadline, kept);
    ScoreOrderMeaning(r);
    ScoreAllHoldsEvaluations(catalog, p, clock);
    assert forall m :: m in r <==> m in multiset(r);
    assert forall m :: m in scored <==> m in multiset(scored);
    r
  }

  // ---------------------------------------------------------------------------
  // Views over a result
  // ---------------------------------------------------------------------------

  /**
    The "urgent only" filter: every copy of each entry at most 14 days from
    its deadline, in order, not re-scored.
   */
  function UrgentOnly(ms: seq<Match>): (r: seq<Match>)
    ensures forall m :: multiset(r)[m] == if m.daysLeft <= UrgentDays then multiset(ms)[m] else 0
    ensures forall m :: m in r <==> m in ms && m.daysLeft <= UrgentDays
    ensures IsSubsequence(r, ms)
  {
    if ms == [] then []
    else
      var rest := UrgentOnly(ms[1..]);
      assert ms == [ms[0]] + ms[1..];
      assert forall m :: m in ms <==> m == ms[0] || m in ms[1..];
      if ms[0].daysLeft <= UrgentDays then
        assert ([ms[0]] + rest)[1..] == rest;
        [ms[0]] + rest
      else
        assert rest == [] || rest[0] != ms[0];
        rest
  }

  /** The sort a viewer picks. "Match Score" keeps the order the list already has. */
  datatype SortChoice = ByMatchScore | ByDeadline | ByAmount

  function Filtered(matches: seq<Match>, urgentOnly: bool): seq<Match>
  {
    if urgentOnly then UrgentOnly(matches) else matches
  }

  lemma DeadlineOrderMeaning(r: seq<Match>)
    requires Sorted(DeadlineFirst, r)
    ensures forall i, j :: 0 <= i < j < |r| ==> r[i].daysLeft <= r[j].daysLeft
  {
    forall i, j | 0 <= i < j < |r|
      ensures r[i].daysLeft <= r[j].daysLeft
    {
      assert KeyLeq(KeyOf(DeadlineFirst, r[i]), KeyOf(DeadlineFirst, r[j]));
    }
  }

  lemma AmountOrderMeaning(r: seq<Match>)
    requires Sorted(AmountFirst, r)
    ensures forall i, j :: 0 <= i < j < |r| ==> r[i].scholarship.amount >= r[j].scholarship.amount
  {
    forall i, j | 0 <= i < j < |r|
      ensures r[i].scholarship.amount >= r[j].scholarship.amount
    {
      assert KeyLeq(KeyOf(AmountFirst, r[i]), KeyOf(AmountFirst, r[j]));
    }
  }

  /**
    What is displayed for a result list: the urgent filter if asked for,
    then the chosen re-sort. The result list itself is left as it was.
   */
  function View(matches: seq<Match>, urgentOnly: bool, choice: SortChoice): (shown: seq<Match>)
    ensures multiset(shown) == multiset(Filtered(matches, urgentOnly))
    ensures forall m :: m in shown <==> m in matches && (urgentOnly ==> m.daysLeft <= UrgentDays)
    ensures choice == ByMatchScore ==> shown == Filtered(matches, urgentOnly)
    ensures choice == ByDeadline ==>
      && (forall i, j :: 0 <= i < j < |shown| ==> shown[i].daysLeft <= shown[j].daysLeft)
      && KeepsTiesInOrder(DeadlineFirst, Filtered(matches, urgentOnly), shown)
    ensures choice == ByAmount ==>
      && (forall i, j :: 0 <= i < j < |shown| ==> shown[i].scholarship.amount >= shown[j].scholarship.amount)
      && KeepsTiesInOrder(AmountFirst, Filtered(matches, urgentOnly), shown)
  {
    var f := Filtered(matches, urgentOnly);
    assert forall m :: m in f <==> m in multiset(f);
    match choice
    case ByMatchScore => f
    case ByDeadline =>
      var shown := SortBy(DeadlineFirst, f);
      DeadlineOrderMeaning(shown);
      assert forall m :: m in shown <==> m in multiset(shown);
      shown
    case ByAmount =>
      var shown := SortBy(AmountFirst, f);
      AmountOrderMeaning(shown);
      assert forall m :: m in shown <==> m in multiset(shown);
      shown
  }
}

=== FILE: records.dfy ===
/**
  The entities of the scholarship matcher: a catalog record with its
  eligibility criteria, the applicant profile, the reason codes the scorer
  emits and one scored match.
 */
module Records {
  import opened Wrappers

  /**
    Eligibility criteria of one scholarship. Every criterion is optional: an
    absent key means its rule is skipped (for location, absence earns a flat
    bonus instead). Gender and major are lists of accepted values; for gender
    the literal value "any" is a wildcard.
   */
  datatype Eligibility = Eligibility(
    gender: Option<seq<string>>,
    major: Option<seq<string>>,
    gpaMin: Option<real>,
    location: Option<seq<string>>,
    ageMin: Option<int>)

  /**
    One catalog record. The deadline is kept as the authored "YYYY-MM-DD"
    text; how many days are left until it is supplied by a clock.
   */
  datatype Scholarship = Scholarship(
    name: string,
    amount: int,
    deadline: string,
    eligibility: Eligibility,
    description: string,
    url: string,
    tags: seq<string>)

  /** The applicant fields that scoring reads. */
  datatype Profile = Profile(
    gender: string,
    major: string,
    gpa: real,
    location: string,
    age: int)

  /** Structured reason codes, one per rule outcome that the scorer reports. */
  datatype Reason =
    | GenderMatch
    | MajorMatch(keyword: string)
    | GpaQualifies(gpa: real, requiredGpa: real)
    | GpaBelowMinimum(gpa: real, requiredGpa: real)
    | LocationMatch
    | AgeRequirementMet
    | AgeRequirementNotMet(age: int, requiredAge: int)
    | DeadlinePassed
    | UrgentDeadline(daysLeft: int)
    | SoonDeadline(daysLeft: int)

  /** A scholarship together with its score, reasons and days until its deadline. */
  datatype Match = Match(
    scholarship: Scholarship,
    score: int,
    reasons: seq<Reason>,
    daysLeft: int)
}

=== FILE: scoring.dfy ===
/**
  The match-scoring rule: a fixed sequence of additive rules over one
  scholarship's eligibility criteria and one applicant profile, followed by
  the age and deadline overrides. The number of whole days until the
  deadline is a parameter (the source reads the clock at this point).
 */
module Scoring {
  import opened Wrappers
  import opened Text
  import opened Records

  const GenderPoints := 30
  const MajorPoints := 40
  const GpaPoints := 15
  const LocationPoints := 10
  /** Awarded instead of LocationPoints when a scholarship names no locations at all. */
  const OpenLocationPoints := 5
  const AgePenalty := 20
  /** Deadlines at most this many days away are reported as urgent. */
  const UrgentDays := 14
  /** Deadlines at most this many days away (and not urgent) are reported as soon. */
  const SoonDays := 30
  /** The largest score any scholarship can earn. */
  const MaxScore := GenderPoints + MajorPoints + GpaPoints + LocationPoints

  /** The running total and the reasons emitted so far. */
  datatype Tally = Tally(score: int, reasons: seq<Reason>)

  /** What scoring one scholarship yields. */
  datatype Scored = Scored(score: int, reasons: seq<Reason>, daysLeft: int)

  function Max(a: int, b: int): int
  {
    if a >= b then a else b
  }

  // ---------------------------------------------------------------------------
  // The rules, stated declaratively
  // ---------------------------------------------------------------------------

  /** The applicant's gender is listed, or the list holds the wildcard "any". */
  predicate GenderAccepted(e: Eligibility, p: Profile)
  {
    e.gender.Some? && (p.gender in e.gender.value || "any" in e.gender.value)
  }

  /** Symmetric substring test between a keyword and the (lower-cased) profile major. */
  predicate MajorMatches(keyword: string, profileMajor: string)
  {
    IsSubstring(keyword, profileMajor) || IsSubstring(profileMajor, keyword)
  }

  /** Some accepted keyword matches the lower-cased major; keywords themselves are not lower-cased. */
  predicate MajorAccepted(e: Eligibility, p: Profile)
  {
    e.major.Some? && exists k :: k in e.major.value && MajorMatches(k, Lower(p.major))
  }

  /** `keyword` is the first entry of `keywords` that matches `profileMajor`. */
  predicate IsFirstMatch(keywords: seq<string>, profileMajor: string, keyword: string)
  {
    exists j :: 0 <= j < |keywords| && keywords[j] == keyword && MajorMatches(keyword, profileMajor)
      && forall l :: 0 <= l < j ==> !MajorMatches(keywords[l], profileMajor)
  }

  predicate GpaAccepted(e: Eligibility, p: Profile)
  {
    e.gpaMin.Some? && p.gpa >= e.gpaMin.value
  }

  /** Some allowed location is a (case-sensitive) substring of the profile location. */
  predicate LocationAccepted(e: Eligibility, p: Profile)
  {
    e.location.Some? && exists a :: a in e.location.value && IsSubstring(a, p.location)
  }

  /** A minimum age is set and the applicant is younger. */
  predicate AgeShort(e: Eligibility, p: Profile)
  {
    e.ageMin.Some? && p.age < e.ageMin.value
  }

  /** The points the four additive rules award, before the age and deadline overrides. */
  function BasePoints(e: Eligibility, p: Profile): int
  {
    (if GenderAccepted(e, p) then GenderPoints else 0)
    + (if MajorAccepted(e, p) then MajorPoints else 0)
    + (if GpaAccepted(e, p) then GpaPoints else 0)
    + (if e.location.None? then OpenLocationPoints
       else if LocationAccepted(e, p) then LocationPoints else 0)
  }

  /** Which rule emits a reason; the scorer emits reasons in this order. */
  function Stage(r: Reason): nat
  {
    match r
    case GenderMatch => 0
    case MajorMatch(_) => 1
    case GpaQualifies(_, _) => 2
    case GpaBelowMinimum(_, _) => 2
    case LocationMatch => 3
    case AgeRequirementMet => 4
    case AgeRequirementNotMet(_, _) => 4
    case DeadlinePassed => 5
    case UrgentDeadline(_) => 5
    case SoonDeadline(_) => 5
  }

  /** Reasons come in rule order, so each rule contributes at most one. */
  predicate InRuleOrder(rs: seq<Reason>)
  {
    forall i, j :: 0 <= i < j < |rs| ==> Stage(rs[i]) < Stage(rs[j])
  }

  /** In rule order, and emitted only by rules before rule `k`. */
  predicate RankedBelow(rs: seq<Reason>, k: nat)
  {
    InRuleOrder(rs) && forall i :: 0 <= i < |rs| ==> Stage(rs[i]) < k
  }

  // ---------------------------------------------------------------------------
  // The searches the source performs with a loop and `break`, and with `any`
  // ---------------------------------------------------------------------------

  /** Index of the first keyword that matches the profile major, scanning in list order. */
  function FirstMajorMatch(keywords: seq<string>, profileMajor: string): (r: Option<nat>)
    ensures r.None? <==> forall k :: k in keywords ==> !MajorMatches(k, profileMajor)
    ensures r.Some? ==> r.value < |keywords| && IsFirstMatch(keywords, profileMajor, keywords[r.value])
  {
    if keywords == [] then None
    else if MajorMatches(keywords[0], profileMajor) then Some(0)
    else
      match FirstMajorMatch(keywords[1..], profileMajor)
      case None => None
      case Some(i) =>
        assert keywords[1..][i] == keywords[i + 1];
        Some(i + 1)
  }

  /** Short-circuiting scan: does some allowed location occur in the profile location? */
  function AnyLocationHit(allowed: seq<string>, location: string): (b: bool)
    ensures b <==> exists a :: a in allowed && IsSubstring(a, location)
  {
    if allowed == [] then false
    else if IsSubstring(allowed[0], location) then
      assert allowed[0] in allowed;
      true
    else
      var rest := AnyLocationHit(allowed[1..], location);
      assert forall a :: a in allowed <==> a == allowed[0] || a in allowed[1..];
      rest
  }

  // ---------------------------------------------------------------------------
  // The rules as the accumulator applies them
  // ---------------------------------------------------------------------------

  function GenderRule(t: Tally, e: Eligibility, p: Profile): (r: Tally)
    requires RankedBelow(t.reasons, 0)
    ensures t.score <= r.score <= t.score + GenderPoints
    ensures RankedBelow(r.reasons, 1)
  {
    match e.gender
    case None => t
    case Some(accepted) =>
      if p.gender in accepted || "any" in accepted then
        Tally(t.score + GenderPoints, t.reasons + [GenderMatch])
      else t
  }

  function MajorRule(t: Tally, e: Eligibility, p: Profile): (r: Tally)
    requires RankedBelow(t.reasons, 1)
    ensures t.score <= r.score <= t.score + MajorPoints
    ensures RankedBelow(r.reasons, 2)
  {
    match e.major
    case None => t
    case Some(keywords) =>
      match FirstMajorMatch(keywords, Lower(p.major))
      case None => t
      case Some(i) => Tally(t.score + MajorPoints, t.reasons + [MajorMatch(keywords[i])])
  }

  function GpaRule(t: Tally, e: Eligibility, p: Profile): (r: Tally)
    requires RankedBelow(t.reasons, 2)
    ensures t.score <= r.score <= t.score + GpaPoints
    ensures RankedBelow(r.reasons, 3)
  {
    match e.gpaMin
    case None => t
    case Some(required) =>
      if p.gpa >= required then Tally(t.score + GpaPoints, t.reasons + [GpaQualifies(p.gpa, required)])
      else Tally(t.score, t.reasons + [GpaBelowMinimum(p.gpa, required)])
  }

  function LocationRule(t: Tally, e: Eligibility, p: Profile): (r: Tally)
    requires RankedBelow(t.reasons, 3)
    ensures t.score <= r.score <= t.score + LocationPoints
    ensures e.location.None? ==> r.score == t.score + OpenLocationPoints
    ensures RankedBelow(r.reasons, 4)
  {
    match e.location
    case Some(allowed) =>
      if AnyLocationHit(allowed, p.location) then
        Tally(t.score + LocationPoints, t.reasons + [LocationMatch])
      else t
    case None => Tally(t.score + OpenLocationPoints, t.reasons)
  }

  function AgeRule(t: Tally, e: Eligibility, p: Profile): (r: Tally)
    requires RankedBelow(t.reasons, 4)
    requires t.score >= 0
    ensures 0 <= r.score <= t.score
    ensures RankedBelow(r.reasons, 5)
  {
    match e.ageMin
    case None => t
    case Some(required) =>
      if p.age >= required then Tally(t.score, t.reasons + [AgeRequirementMet])
      else Tally(Max(0, t.score - AgePenalty), t.reasons + [AgeRequirementNotMet(p.age, required)])
  }

  function DeadlineRule(t: Tally, daysLeft: int): (r: Tally)
    requires RankedBelow(t.reasons, 5)
    requires t.score >= 0
    ensures daysLeft < 0 ==> r.score == 0
    ensures daysLeft >= 0 ==> r.score == t.score
    ensures RankedBelow(r.reasons, 6)
  {
    if daysLeft < 0 then Tally(0, t.reasons + [DeadlinePassed])
    else if daysLeft <= UrgentDays then Tally(t.score, t.reasons + [UrgentDeadline(daysLeft)])
    else if daysLeft <= SoonDays then Tally(t.score, t.reasons + [SoonDeadline(daysLeft)])
    else t
  }

  /** The tally after the four additive rules, in source order. */
  function Additive(e: Eligibility, p: Profile): (r: Tally)
    ensures 0 <= r.score <= MaxScore
    ensures e.location.None? ==> r.score <= MaxScore - LocationPoints + OpenLocationPoints
    ensures RankedBelow(r.reasons, 4)
  {
    LocationRule(GpaRule(MajorRule(GenderRule(Tally(0, []), e, p), e, p), e, p), e, p)
  }

  /**
    Scores one scholarship against a profile, `daysLeft` whole days before its
    deadline: gender, major, GPA, location, then the age and deadline overrides.
   */
  function MatchScore(s: Scholarship, p: Profile, daysLeft: int): (r: Scored)
    ensures 0 <= r.score <= MaxScore
    ensures s.eligibility.location.None? ==> r.score <= MaxScore - LocationPoints + OpenLocationPoints
    ensures r.daysLeft == daysLeft
    ensures daysLeft < 0 ==> r.score == 0 && |r.reasons| > 0 && r.reasons[|r.reasons| - 1] == DeadlinePassed
    ensures InRuleOrder(r.reasons)
  {
    var e := s.eligibility;
    var t := DeadlineRule(AgeRule(Additive(e, p), e, p), daysLeft);
    Scored(t.score, t.reasons, daysLeft)
  }
}

=== FILE: scoring_properties.dfy ===
/** What the match-scoring rule promises, proved about `Scoring.MatchScore`. */
module ScoringProperties {
  import opened Wrappers
  import opened Text
  import opened Records
  import opened Scoring

  /** The same scholarship with one criterion replaced. */
  function WithMajor(s: Scholarship, major: Option<seq<string>>): Scholarship
  {
    s.(eligibility := s.eligibility.(major := major))
  }

  function WithLocation(s: Scholarship, location: Option<seq<string>>): Scholarship
  {
    s.(eligibility := s.eligibility.(location := location))
  }

  function WithoutAgeMin(s: Scholarship): Scholarship
  {
    s.(eligibility := s.eligibility.(ageMin := None))
  }

  /** The four additive rules award exactly the declarative per-rule points. */
  lemma AdditiveIsBasePoints(e: Eligibility, p: Profile)
    ensures Additive(e, p).score == BasePoints(e, p)
  {
  }

  lemma BasePointsWithoutMajor(e: Eligibility, p: Profile)
    ensures BasePoints(e.(major := None), p) + (if MajorAccepted(e, p) then MajorPoints else 0) == BasePoints(e, p)
  {
  }

  lemma BasePointsWithEmptyLocations(e: Eligibility, p: Profile)
    ensures BasePoints(e.(location := Some([])), p) + (if e.location.None? then OpenLocationPoints
      else if LocationAccepted(e, p) then LocationPoints else 0) == BasePoints(e, p)
  {
  }

  lemma BasePointsIgnoreAge(e: Eligibility, p: Profile)
    ensures BasePoints(e.(ageMin := None), p) == BasePoints(e, p)
    ensures !AgeShort(e.(ageMin := None), p)
  {
  }

  /**
    The accumulator agrees with the rules read one at a time: an expired
    deadline scores 0; otherwise the per-rule points, less 20 (floored at 0)
    when the applicant is under the minimum age.
   */
  lemma MatchScoreFollowsRules(s: Scholarship, p: Profile, daysLeft: int)
    ensures MatchScore(s, p, daysLeft).score ==
      if daysLeft < 0 then 0
      else if AgeShort(s.eligibility, p) then Max(0, BasePoints(s.eligibility, p) - AgePenalty)
      else BasePoints(s.eligibility, p)
  {
    AdditiveIsBasePoints(s.eligibility, p);
  }

  /** While the deadline has not passed, how near it is never changes the score. */
  lemma DeadlineReasonsKeepScore(s: Scholarship, p: Profile, d1: int, d2: int)
    requires d1 >= 0 && d2 >= 0
    ensures MatchScore(s, p, d1).score == MatchScore(s, p, d2).score
    ensures MatchScore(s, p, d1).score == AgeRule(Additive(s.eligibility, p), s.eligibility, p).score
  {
  }

  /**
    The deadline rule's reason is the last one: "deadline passed" when expired,
    "urgent" up to 14 days, "soon" up to 30 days, and none further out.
   */
  lemma DeadlineReason(s: Scholarship, p: Profile, daysLeft: int)
    ensures var rs := MatchScore(s, p, daysLeft).reasons;
      && (daysLeft < 0 ==> rs[|rs| - 1] == DeadlinePassed)
      && (0 <= daysLeft <= UrgentDays ==> rs[|rs| - 1] == UrgentDeadline(daysLeft))
      && (UrgentDays < daysLeft <= SoonDays ==> rs[|rs| - 1] == SoonDeadline(daysLeft))
      && (SoonDays < daysLeft ==> forall i :: 0 <= i < |rs| ==> Stage(rs[i]) < 5)
  {
  }

  /** The reasons a rule appends depend only on the eligibility, the profile and the deadline. */
  lemma GenderAppends(t: Tally, e: Eligibility, p: Profile)
    requires RankedBelow(t.reasons, 0)
    ensures GenderRule(t, e, p).reasons == t.reasons + GenderRule(Tally(0, []), e, p).reasons
  {
  }

  lemma MajorAppends(t: Tally, e: Eligibility, p: Profile)
    requires RankedBelow(t.reasons, 1)
    ensures MajorRule(t, e, p).reasons == t.reasons + MajorRule(Tally(0, []), e, p).reasons
  {
  }

  lemma GpaAppends(t: Tally, e: Eligibility, p: Profile)
    requires RankedBelow(t.reasons, 2)
    ensures GpaRule(t, e, p).reasons == t.reasons + GpaRule(Tally(0, []), e, p).reasons
  {
  }

  lemma LocationAppends(t: Tally, e: Eligibility, p: Profile)
    requires RankedBelow(t.reasons, 3)
    ensures LocationRule(t, e, p).reasons == t.reasons + LocationRule(Tally(0, []), e, p).reasons
  {
  }

  lemma AgeAppends(t: Tally, e: Eligibility, p: Profile)
    requires RankedBelow(t.reasons, 4) && t.score >= 0
    ensures AgeRule(t, e, p).reasons == t.reasons + AgeRule(Tally(0, []), e, p).reasons
  {
  }

  lemma DeadlineAppends(t: Tally, daysLeft: int)
    requires RankedBelow(t.reasons, 5) && t.score >= 0
    ensures DeadlineRule(t, daysLeft).reasons == t.reasons + DeadlineRule(Tally(0, []), daysLeft).reasons
  {
  }

  /** Each rule appends reasons that do not depend on the running score. */
  lemma ReasonsByRule(s: Scholarship, p: Profile, daysLeft: int)
    ensures var e := s.eligibility;
      var t0 := Tally(0, []);
      MatchScore(s, p, daysLeft).reasons ==
        GenderRule(t0, e, p).reasons + MajorRule(t0, e, p).reasons + GpaRule(t0, e, p).reasons
        + LocationRule(t0, e, p).reasons + AgeRule(t0, e, p).reasons + DeadlineRule(t0, daysLeft).reasons
  {
    var e := s.eligibility;
    var t0 := Tally(0, []);
    var t1 := GenderRule(t0, e, p);
    var t2 := MajorRule(t1, e, p);
    MajorAppends(t1, e, p);
    var t3 := GpaRule(t2, e, p);
    GpaAppends(t2, e, p);
    var t4 := LocationRule(t3, e, p);
    LocationAppends(t3, e, p);
    assert t4 == Additive(e, p);
    var t5 := AgeRule(t4, e, p);
    AgeAppends(t4, e, p);
    var t6 := DeadlineRule(t5, daysLeft);
    DeadlineAppends(t5, daysLeft);
    assert MatchScore(s, p, daysLeft).reasons == t6.reasons;
  }

  /** Reasons in rule order never hold two reasons from the same rule. */
  lemma OneReasonPerRule(rs: seq<Reason>)
    requires InRuleOrder(rs)
    ensures forall i, j :: 0 <= i < j < |rs| ==> Stage(rs[i]) != Stage(rs[j])
    ensures forall i, j :: 0 <= i < j < |rs| && rs[i].MajorMatch? ==> !rs[j].MajorMatch?
  {
  }

  /** What the major rule appends: one reason naming the first matching keyword, or nothing. */
  lemma MajorRuleEmits(e: Eligibility, p: Profile)
    ensures var m := MajorRule(Tally(0, []), e, p).reasons;
      && |m| <= 1
      && (|m| == 1 <==> MajorAccepted(e, p))
      && (forall r: Reason :: r in m ==> r.MajorMatch? && e.major.Some? && IsFirstMatch(e.major.value, Lower(p.major), r.keyword))
  {
  }

  /** The other rules never append a major reason. */
  lemma OtherRulesEmitNoMajor(e: Eligibility, p: Profile, daysLeft: int)
    ensures var t0 := Tally(0, []);
      forall r: Reason :: r in GenderRule(t0, e, p).reasons + GpaRule(t0, e, p).reasons
        + LocationRule(t0, e, p).reasons + AgeRule(t0, e, p).reasons + DeadlineRule(t0, daysLeft).reasons
        ==> !r.MajorMatch?
  {
  }

  lemma MajorFromRules(rs: seq<Reason>, e: Eligibility, p: Profile, daysLeft: int)
    requires var t0 := Tally(0, []);
      rs == GenderRule(t0, e, p).reasons + MajorRule(t0, e, p).reasons + GpaRule(t0, e, p).reasons
        + LocationRule(t0, e, p).reasons + AgeRule(t0, e, p).reasons + DeadlineRule(t0, daysLeft).reasons
    requires InRuleOrder(rs)
    ensures (exists r: Reason :: r in rs && r.MajorMatch?) <==> MajorAccepted(e, p)
    ensures forall r: Reason :: r in rs && r.MajorMatch? ==>
      e.major.Some? && IsFirstMatch(e.major.value, Lower(p.major), r.keyword)
    ensures forall i, j :: 0 <= i < j < |rs| && rs[i].MajorMatch? ==> !rs[j].MajorMatch?
  {
    var t0 := Tally(0, []);
    var g := GenderRule(t0, e, p).reasons;
    var m := MajorRule(t0, e, p).reasons;
    var others := GpaRule(t0, e, p).reasons + LocationRule(t0, e, p).reasons
        + AgeRule(t0, e, p).reasons + DeadlineRule(t0, daysLeft).reasons;
    assert rs == g + m + others;
    MajorRuleEmits(e, p);
    OtherRulesEmitNoMajor(e, p, daysLeft);
    assert forall r: Reason :: r in g + others ==> !r.MajorMatch?;
    assert forall r: Reason :: r in rs <==> r in m || r in g + others;
    if MajorAccepted(e, p) {
      assert m[0] in rs;
    }
    OneReasonPerRule(rs);
  }

  /**
    The major rule fires at most once: a major reason is present exactly when
    some keyword matches, and it names the first matching keyword in list order.
   */
  lemma MajorReasonIsFirstMatch(s: Scholarship, p: Profile, daysLeft: int)
    ensures var rs := MatchScore(s, p, daysLeft).reasons;
      && ((exists r: Reason :: r in rs && r.MajorMatch?) <==> MajorAccepted(s.eligibility, p))
      && (forall r: Reason :: r in rs && r.MajorMatch? ==>
            s.eligibility.major.Some? && IsFirstMatch(s.eligibility.major.value, Lower(p.major), r.keyword))
      && (forall i, j :: 0 <= i < j < |rs| && rs[i].MajorMatch? ==> !rs[j].MajorMatch?)
  {
    ReasonsByRule(s, p, daysLeft);
    MajorFromRules(MatchScore(s, p, daysLeft).reasons, s.eligibility, p, daysLeft);
  }

  /** The major rule is worth either nothing or exactly 40 points, 40 exactly when some keyword matches. */
  lemma MajorPointsAllOrNothing(s: Scholarship, p: Profile, daysLeft: int)
    requires daysLeft >= 0 && s.eligibility.ageMin.None?
    ensures MatchScore(s, p, daysLeft).score ==
      MatchScore(WithMajor(s, None), p, daysLeft).score + (if MajorAccepted(s.eligibility, p) then MajorPoints else 0)
  {
    MatchScoreFollowsRules(s, p, daysLeft);
    MatchScoreFollowsRules(WithMajor(s, None), p, daysLeft);
    BasePointsWithoutMajor(s.eligibility, p);
  }

  /** The reasons rule `k` appends (0 gender, 1 major, 2 GPA, 3 location, 4 age, 5 deadline). */
  function Emitted(e: Eligibility, p: Profile, daysLeft: int, k: nat): seq<Reason>
  {
    var t0 := Tally(0, []);
    if k == 0 then GenderRule(t0, e, p).reasons
    else if k == 1 then MajorRule(t0, e, p).reasons
    else if k == 2 then GpaRule(t0, e, p).reasons
    else if k == 3 then LocationRule(t0, e, p).reasons
    else if k == 4 then AgeRule(t0, e, p).reasons
    else if k == 5 then DeadlineRule(t0, daysLeft).reasons
    else []
  }

  lemma EmittedAtOwnStage(e: Eligibility, p: Profile, daysLeft: int)
    ensures forall k: nat, r: Reason :: r in Emitted(e, p, daysLeft, k) ==> Stage(r) == k
  {
  }

  /** `rs` holds exactly the reasons their own rules emit for `e`, `p` and `daysLeft`. */
  ghost predicate FromRules(rs: seq<Reason>, e: Eligibility, p: Profile, daysLeft: int)
  {
    forall r: Reason :: r in rs <==> r in Emitted(e, p, daysLeft, Stage(r))
  }

  /** What the rules emit one after another holds each reason exactly when its own rule emits it. */
  lemma ConcatenationFromRules(rs: seq<Reason>, e: Eligibility, p: Profile, daysLeft: int)
    requires var t0 := Tally(0, []);
      rs == GenderRule(t0, e, p).reasons + MajorRule(t0, e, p).reasons + GpaRule(t0, e, p).reasons
        + LocationRule(t0, e, p).reasons + AgeRule(t0, e, p).reasons + DeadlineRule(t0, daysLeft).reasons
    ensures FromRules(rs, e, p, daysLeft)
  {
    EmittedAtOwnStage(e, p, daysLeft);
    assert rs == Emitted(e, p, daysLeft, 0) + Emitted(e, p, daysLeft, 1) + Emitted(e, p, daysLeft, 2)
      + Emitted(e, p, daysLeft, 3) + Emitted(e, p, daysLeft, 4) + Emitted(e, p, daysLeft, 5);
    forall r: Reason
      ensures r in rs <==> r in Emitted(e, p, daysLeft, Stage(r))
    {
      assert r in rs <==> exists k: nat :: k < 6 && r in Emitted(e, p, daysLeft, k);
    }
  }

  /** A reason is in the result exactly when the rule it belongs to emitted it. */
  lemma ReasonComesFromItsRule(s: Scholarship, p: Profile, daysLeft: int)
    ensures FromRules(MatchScore(s, p, daysLeft).reasons, s.eligibility, p, daysLeft)
  {
    ReasonsByRule(s, p, daysLeft);
    ConcatenationFromRules(MatchScore(s, p, daysLeft).reasons, s.eligibility, p, daysLeft);
  }

  lemma GenderFromRules(rs: seq<Reason>, e: Eligibility, p: Profile, daysLeft: int)
    requires FromRules(rs, e, p, daysLeft)
    ensures GenderMatch in rs <==> GenderAccepted(e, p)
  {
    assert GenderMatch in rs <==> GenderMatch in GenderRule(Tally(0, []), e, p).reasons;
  }

  /** A scholarship that lists the applicant's gender, or "any", always reports a gender match. */
  lemma GenderReason(s: Scholarship, p: Profile, daysLeft: int)
    ensures GenderMatch in MatchScore(s, p, daysLeft).reasons <==> GenderAccepted(s.eligibility, p)
  {
    ReasonComesFromItsRule(s, p, daysLeft);
    GenderFromRules(MatchScore(s, p, daysLeft).reasons, s.eligibility, p, daysLeft);
  }

  lemma GpaFromRules(rs: seq<Reason>, e: Eligibility, p: Profile, daysLeft: int)
    requires FromRules(rs, e, p, daysLeft)
    ensures match e.gpaMin
      case Some(required) =>
        && (GpaQualifies(p.gpa, required) in rs <==> p.gpa >= required)
        && (GpaBelowMinimum(p.gpa, required) in rs <==> p.gpa < required)
      case None => forall r: Reason :: r in rs ==> Stage(r) != 2
  {
    var gpas := GpaRule(Tally(0, []), e, p).reasons;
    assert Emitted(e, p, daysLeft, 2) == gpas;
    match e.gpaMin
    case Some(required) =>
      assert GpaQualifies(p.gpa, required) in rs <==> GpaQualifies(p.gpa, required) in gpas;
      assert GpaBelowMinimum(p.gpa, required) in rs <==> GpaBelowMinimum(p.gpa, required) in gpas;
      assert gpas == if p.gpa >= required then [GpaQualifies(p.gpa, required)] else [GpaBelowMinimum(p.gpa, required)];
    case None =>
      assert gpas == [];
  }

  /**
    A GPA reason is emitted whenever a minimum GPA is set, on the passing and
    on the failing branch alike, and never otherwise.
   */
  lemma GpaReasonEitherWay(s: Scholarship, p: Profile, daysLeft: int)
    ensures var rs := MatchScore(s, p, daysLeft).reasons;
      match s.eligibility.gpaMin
      case Some(required) =>
        && (GpaQualifies(p.gpa, required) in rs <==> p.gpa >= required)
        && (GpaBelowMinimum(p.gpa, required) in rs <==> p.gpa < required)
      case None => forall r: Reason :: r in rs ==> Stage(r) != 2
  {
    ReasonComesFromItsRule(s, p, daysLeft);
    GpaFromRules(MatchScore(s, p, daysLeft).reasons, s.eligibility, p, daysLeft);
  }

  lemma LocationFromRules(rs: seq<Reason>, e: Eligibility, p: Profile, daysLeft: int)
    requires FromRules(rs, e, p, daysLeft)
    ensures LocationMatch in rs <==> LocationAccepted(e, p)
  {
    assert LocationMatch in rs <==> LocationMatch in LocationRule(Tally(0, []), e, p).reasons;
  }

  /** A location reason is emitted exactly when an allowed location occurs in the profile location. */
  lemma LocationReason(s: Scholarship, p: Profile, daysLeft: int)
    ensures LocationMatch in MatchScore(s, p, daysLeft).reasons <==> LocationAccepted(s.eligibility, p)
  {
    ReasonComesFromItsRule(s, p, daysLeft);
    LocationFromRules(MatchScore(s, p, daysLeft).reasons, s.eligibility, p, daysLeft);
  }

  /**
    Exactly one location branch applies: with an allow-list the rule is worth
    10 points on a substring hit and nothing otherwise (an empty allow-list is
    the zero point of comparison); without one it is a flat 5 points.
   */
  lemma LocationBranches(s: Scholarship, p: Profile, daysLeft: int)
    requires daysLeft >= 0 && s.eligibility.ageMin.None?
    ensures MatchScore(s, p, daysLeft).score == MatchScore(WithLocation(s, Some([])), p, daysLeft).score +
        (if s.eligibility.location.None? then OpenLocationPoints
         else if LocationAccepted(s.eligibility, p) then LocationPoints else 0)
  {
    MatchScoreFollowsRules(s, p, daysLeft);
    MatchScoreFollowsRules(WithLocation(s, Some([])), p, daysLeft);
    BasePointsWithEmptyLocations(s.eligibility, p);
  }

  /**
    The age rule: below the minimum age the score drops by 20 but never below
    0; at or above it the score is what it would be with no minimum at all.
   */
  lemma AgePenaltyFloorsAtZero(s: Scholarship, p: Profile, daysLeft: int)
    ensures var without := MatchScore(WithoutAgeMin(s), p, daysLeft).score;
      MatchScore(s, p, daysLeft).score ==
        if AgeShort(s.eligibility, p) then Max(0, without - AgePenalty) else without
  {
    MatchScoreFollowsRules(s, p, daysLeft);
    MatchScoreFollowsRules(WithoutAgeMin(s), p, daysLeft);
    BasePointsIgnoreAge(s.eligibility, p);
  }

  lemma AgeFromRules(rs: seq<Reason>, e: Eligibility, p: Profile, daysLeft: int)
    requires FromRules(rs, e, p, daysLeft)
    ensures match e.ageMin
      case Some(required) =>
        && (AgeRequirementMet in rs <==> p.age >= required)
        && (AgeRequirementNotMet(p.age, required) in rs <==> p.age < required)
      case None => forall r: Reason :: r in rs ==> Stage(r) != 4
  {
    var ages := AgeRule(Tally(0, []), e, p).reasons;
    assert Emitted(e, p, daysLeft, 4) == ages;
    match e.ageMin
    case Some(required) =>
      assert AgeRequirementMet in rs <==> AgeRequirementMet in ages;
      assert AgeRequirementNotMet(p.age, required) in rs <==> AgeRequirementNotMet(p.age, required) in ages;
      assert ages == if p.age >= required then [AgeRequirementMet] else [AgeRequirementNotMet(p.age, required)];
    case None =>
      assert ages == [];
  }

  /** When a minimum age is set, a reason says whether it is met; otherwise there is no age reason. */
  lemma AgeReason(s: Scholarship, p: Profile, daysLeft: int)
    ensures var rs := MatchScore(s, p, daysLeft).reasons;
      match s.eligibility.ageMin
      case Some(required) =>
        && (AgeRequirementMet in rs <==> p.age >= required)
        && (AgeRequirementNotMet(p.age, required) in rs <==> p.age < required)
      case None => forall r: Reason :: r in rs ==> Stage(r) != 4
  {
    ReasonComesFromItsRule(s, p, daysLeft);
    AgeFromRules(MatchScore(s, p, daysLeft).reasons, s.eligibility, p, daysLeft);
  }
}

=== FILE: session_view.dfy ===
/**
  How the displayed list relates to the result list stored for the session.
  The source re-sorts the displayed list in place; when the urgent filter is
  off, the displayed list is the stored result itself, so a "Deadline" or
  "Amount" re-sort replaces the stored order, and a later "Match Score" view
  (which does not sort) shows that replaced order.
 */
module SessionView {
  import opened Records
  import opened Scoring
  import opened Ordering
  import opened Pipeline

  /** The list shown and the session's stored result after one display. */
  datatype Display = Display(shown: seq<Match>, session: seq<Match>)

  /**
    The display as the source performs it, sorting the shown list in place:
    the stored result keeps its entries, but without the urgent filter a
    "Deadline" or "Amount" view leaves it re-sorted.
   */
  function ViewInPlace(session: seq<Match>, urgentOnly: bool, choice: SortChoice): (d: Display)
    ensures d.shown == View(session, urgentOnly, choice)
    ensures multiset(d.session) == multiset(session)
    ensures urgentOnly || choice == ByMatchScore ==> d.session == session
    ensures !urgentOnly && choice == ByDeadline ==>
      forall i, j :: 0 <= i < j < |d.session| ==> d.session[i].daysLeft <= d.session[j].daysLeft
    ensures !urgentOnly && choice == ByAmount ==>
      forall i, j :: 0 <= i < j < |d.session| ==> d.session[i].scholarship.amount >= d.session[j].scholarship.amount
  {
    var shown := View(session, urgentOnly, choice);
    Display(shown, if urgentOnly then session else shown)
  }

  /**
    Any two matches in score order, the better one 50 days and the other 5
    days from its deadline: after a "Deadline" view without the urgent
    filter, the "Match Score" view shows them out of score order.
   */
  lemma InPlaceResortLosesScoreOrder(a: Scholarship, b: Scholarship)
    ensures var session := [Match(a, 80, [], 50), Match(b, 45, [], 5)];
      && Sorted(ScoreThenDeadline, session)
      && var after := ViewInPlace(session, false, ByDeadline).session;
         !Sorted(ScoreThenDeadline, ViewInPlace(after, false, ByMatchScore).shown)
  {
    var best := Match(a, 80, [], 50);
    var close := Match(b, 45, [], 5);
    var session := [best, close];
    assert Sorted(ScoreThenDeadline, session);
    assert SortBy(DeadlineFirst, [close]) == [close];
    assert Insert(DeadlineFirst, best, [close]) == [close, best];
    assert SortBy(DeadlineFirst, session) == Insert(DeadlineFirst, best, SortBy(DeadlineFirst, [close]));
    var after := ViewInPlace(session, false, ByDeadline).session;
    assert after == [close, best];
    var shown := ViewInPlace(after, false, ByMatchScore).shown;
    assert shown == [close, best];
    assert !KeyLeq(KeyOf(ScoreThenDeadline, shown[0]), KeyOf(ScoreThenDeadline, shown[1]));
  }

  /** The urgent filter keeps any order the list already has. */
  lemma {:induction false} UrgentOnlyKeepsOrder(o: Order, ms: seq<Match>)
    requires Sorted(o, ms)
    ensures Sorted(o, UrgentOnly(ms))
  {
    if ms != [] {
      UrgentOnlyKeepsOrder(o, ms[1..]);
      var rest := UrgentOnly(ms[1..]);
      if ms[0].daysLeft <= UrgentDays {
        forall y | y in rest
          ensures KeyLeq(KeyOf(o, ms[0]), KeyOf(o, y))
        {
          var l :| 0 <= l < |ms[1..]| && ms[1..][l] == y;
          assert ms[l + 1] == y;
        }
        SortedCons(o, ms[0], rest);
      }
    }
  }

  /**
    Because a view that never changes the stored result leaves it as the
    search produced it, the "Match Score" view of a search result is always
    in score order, with or without the urgent filter.
   */
  lemma ScoreViewOfSearchIsSorted(catalog: seq<Scholarship>, p: Profile, minScore: int, clock: Clock, urgentOnly: bool)
    ensures var shown := View(Search(catalog, p, minScore, clock), urgentOnly, ByMatchScore);
      forall i, j :: 0 <= i < j < |shown| ==>
        shown[i].score > shown[j].score || (shown[i].score == shown[j].score && shown[i].daysLeft <= shown[j].daysLeft)
  {
    var r := Search(catalog, p, minScore, clock);
    assert Sorted(ScoreThenDeadline, r);
    if urgentOnly {
      UrgentOnlyKeepsOrder(ScoreThenDeadline, r);
    }
    ScoreOrderMeaning(View(r, urgentOnly, ByMatchScore));
  }
}

=== FILE: text.dfy ===
/**
  String helpers with the meaning Python gives them in the matcher:
  `str.lower()` and the `in` operator on two strings (substring test).
 */
module Text {

  /** ASCII upper-case letters map to their lower-case form; every other character is kept. */
  function LowerChar(c: char): char
  {
    if 'A' <= c <= 'Z' then (c as int + ('a' as int - 'A' as int)) as char else c
  }

  predicate IsUpper(c: char)
  {
    'A' <= c <= 'Z'
  }

  /**
    Lower-cases a string character by character: no upper-case letter is
    left, each upper-case letter becomes the letter 32 code points above it,
    and every other character is kept where it was.
   */
  function Lower(s: string): (r: string)
    ensures |r| == |s|
    ensures forall i :: 0 <= i < |r| ==> !IsUpper(r[i])
    ensures forall i :: 0 <= i < |s| && !IsUpper(s[i]) ==> r[i] == s[i]
    ensures forall i :: 0 <= i < |s| && IsUpper(s[i]) ==> r[i] as int == s[i] as int + ('a' as int - 'A' as int)
  {
    seq(|s|, i requires 0 <= i < |s| => LowerChar(s[i]))
  }

  /** `needle` occurs in `hay` starting at position `i`. */
  predicate OccursAt(needle: string, hay: string, i: int)
  {
    0 <= i && i + |needle| <= |hay| && hay[i..i + |needle|] == needle
  }

  /**
    Python's `needle in hay` for two strings: scans `hay` from the left for a
    position where `needle` starts. The empty string occurs in every string.
   */
  function IsSubstring(needle: string, hay: string): (b: bool)
    ensures b <==> exists i :: OccursAt(needle, hay, i)
    decreases |hay|
  {
    if needle <= hay then
      assert OccursAt(needle, hay, 0);
      true
    else if |hay| == 0 then
      assert forall i :: !OccursAt(needle, hay, i);
      false
    else
      var rest := IsSubstring(needle, hay[1..]);
      assert forall i :: OccursAt(needle, hay[1..], i) ==> OccursAt(needle, hay, i + 1) by {
        forall i | OccursAt(needle, hay[1..], i)
          ensures OccursAt(needle, hay, i + 1)
        {
          assert hay[i + 1..i + 1 + |needle|] == hay[1..][i..i + |needle|];
        }
      }
      assert forall i :: OccursAt(needle, hay, i) ==> i > 0 && OccursAt(needle, hay[1..], i - 1) by {
        forall i | OccursAt(needle, hay, i)
          ensures i > 0 && OccursAt(needle, hay[1..], i - 1)
        {
          assert hay[1..][i - 1..i - 1 + |needle|] == hay[i..i + |needle|];
        }
      }
      rest
  }

  /** Substring facts the matcher's edge cases rest on. */
  lemma SubstringBasics(s: string, t: string)
    ensures IsSubstring([], t)
    ensures IsSubstring(s, s)
    ensures IsSubstring(s, t) ==> |s| <= |t|
  {
    assert OccursAt([], t, 0);
    assert OccursAt(s, s, 0);
  }
}

=== FILE: wrappers.dfy ===
/** Optional values, used for the eligibility criteria a scholarship may leave out. */
module Wrappers {

  /** Either no value, or some value of type T. */
  datatype Option<+T> = None | Some(value: T)
}
